=== FILE: README.md ===
# Video player controls: a Dafny model

This project models the logic inside the React `VideoPlayer` component
(`src/components/VideoPlayer.tsx`). The component is a custom control overlay
over an HTML `<video>` element: play/pause, skip ±15 s, a progress bar, a volume
slider with a four-way volume icon, a mute toggle, a 720p/1080p quality switch,
keyboard shortcuts, and a one-second poll that copies the element's time into
the on-screen displays.

The model is functional. An immutable `Player` record holds these values:

- the component's React state: `isPlaying`, `isMuted`, `quality`, `currentTime`, `remainingTime`, `duration` and `volume`;
- the values the component writes through refs: the volume slider, and the progress bar's max and value;
- the element's position, duration, volume and muted flag.

Each event handler is a pure function over that record.

Modules:

- `Decimal`: JavaScript's `toString()` for integer-valued numbers, and the digit parser that inverts it.
- `TimeFormat`: `padStart(2, '0')`, `formatTime` (`MM:SS`), `formatDuration` (`HH:MM:SS`, where minutes are the total minutes and are not reduced mod 60), and a parser for colon-separated fields that reads a display back.
- `VolumeIcon`: JavaScript string `<` and `<=`, the slider's value texts, and `changeVolumeIcon` as a classifier into `Mute | Low | Medium | High`. It is checked against a reference that uses numeric thresholds.
- `Player`: the state record and the handlers `togglePlay`, `onPlay`/`onPause`, `forwardVideo`/`backwardVideo`, `handleChangeRange`, `handleVolumeChange`, `handleMute`, `handleQualityChange`, `handleTimeUpdate` and `handleKeyPress`. It also holds the source selection (`Source`), the quality checkboxes and the time displays.
- `PlayerLemmas`: what each handler changes and keeps, plus the inverse pairs, fixpoints and read-back properties.
- `Session`: the component over time. It models events, React's re-render, the volume icon drawn by the last render, and the keydown listener registered by the effect at line 157. That listener closes over the state of the render that last re-ran the effect.

Units and representation:

- Times are whole seconds. The element's position is an `int`, because nothing in the component clamps it.
- Volumes are tenths of full volume, 0..10. The slider's value has the type `Tenths`, the eleven values the range input can hold.
- A handler that reads React state takes a `View` argument: the `isPlaying`/`isMuted` its closure saw.
  - Handlers wired in the markup see the current state.
  - The keydown listener sees the state from the render that registered it.
- `play()` and `pause()` are recorded in a command log (`issued`) and are not simulated.

Behaviour of the code that a reader of the component might not expect, and that the model keeps as written:

- `togglePlay` branches on the component's own `isPlaying` flag. It does not read the element's paused state.
- When `handleMute` unmutes, it sets the slider to a fixed 0.2. It does not restore a remembered level.
- `handleMute` drives the element's `muted` flag. It does not drive the element's volume; the next poll copies the slider's value into the element.
- Changing the quality does not save or restore the position.
- Nothing guards against an undefined duration.
- The icon is chosen by string comparison. `VolumeIcon.SliderIconMatchesThresholds` proves that this agrees with the numeric thresholds for every value the slider can hold.
- The icon is computed during render, and moving the slider re-renders only when the muted flag changes. So the icon can lag behind the slider: `Session.IconLagsBehindSlider` shows the low icon left on screen with the slider at 0.8.
- The first render happens before the slider is mounted, so the first icon is the high one although the slider shows 0.

## Model

| member | source | states |
|---|---|---|
| Decimal.NatToString | src/components/VideoPlayer.tsx:64-66 | `toString()` of a non-negative whole number is a non-empty string of digits |
| Decimal.NatToStringShape | src/components/VideoPlayer.tsx:64-66 | the numeral has no leading zero except for 0, is one character exactly below 10, and is at most two characters exactly below 100, which is when `padStart(2, '0')` pads it |
| Decimal.NatToStringRoundTrip | src/components/VideoPlayer.tsx:64-66 | reading the rendered numeral back gives the number |
| Decimal.NatToStringInjective | src/components/VideoPlayer.tsx:64-66 | different numbers never render the same numeral |
| Decimal.IntToString | src/components/VideoPlayer.tsx:64-66 | a number renders with a leading minus sign exactly when it is negative. The rest is the numeral of its magnitude: it reads back as that magnitude and has no leading zero except for 0 itself |
| Decimal.IntToStringInjective | src/components/VideoPlayer.tsx:64-66 | different integers, negative ones included, never render the same text |
| Decimal.LeadingZeroValue | src/components/VideoPlayer.tsx:64-66 | zero-padding a numeral does not change its value |
| TimeFormat.PadStart2 | src/components/VideoPlayer.tsx:64-66 | `padStart(2, '0')` gives width max(2, length). It ends with the input, is zeros before it, and never truncates |
| TimeFormat.JsRemainder60 | src/components/VideoPlayer.tsx:63 | JavaScript `% 60` keeps the sign of the dividend, stays within ±60, and differs from it by whole minutes |
| TimeFormat.FormatTime | src/components/VideoPlayer.tsx:61-67 | `formatTime` of t ≥ 0 reads back as the two numbers t / 60 and t % 60. Each colon-separated field is at least two characters and starts with `0` only as padding. A negative time starts with a minus sign |
| TimeFormat.FormatTimeReadsBack | src/components/VideoPlayer.tsx:61-67 | for t ≥ 0 the `MM:SS` display reads back as two fields with minutes·60 + seconds = t and seconds < 60 |
| TimeFormat.FormatTimeInjective | src/components/VideoPlayer.tsx:61-67 | different non-negative times never show the same text |
| TimeFormat.FormatTimeLayout | src/components/VideoPlayer.tsx:61-67 | for 0 ≤ t < 6000 the text has length 5, with `:` at index 2 and digits around it |
| TimeFormat.FormatDuration | src/components/VideoPlayer.tsx:69-77 | `formatDuration` of t ≥ 0 reads back as the three numbers t / 3600, t / 60 (the total minutes, not reduced) and t % 60. Each colon-separated field is at least two characters and starts with `0` only as padding. A negative time starts with a minus sign |
| TimeFormat.FormatDurationReadsBack | src/components/VideoPlayer.tsx:69-77 | for t ≥ 0 the `HH:MM:SS` display reads back as three fields. Minutes·60 + seconds = t, seconds < 60, and hours = minutes / 60, so the minutes field is the total minutes |
| TimeFormat.FormatDurationMinutesUnreduced | src/components/VideoPlayer.tsx:69-77 | from one hour on, the minutes field shows 60 or more |
| TimeFormat.FormatDurationExample | src/components/VideoPlayer.tsx:69-77 | 3700 s is shown as `01:61:40` |
| TimeFormat.FormatDurationUnderAnHour | src/components/VideoPlayer.tsx:61-77 | below one hour, `formatDuration` is `00:` followed by `formatTime` |
| TimeFormat.NegativeTimes | src/components/VideoPlayer.tsx:61-77 | a negative time is shown with a leading minus sign and does not read back as a clock |
| TimeFormat.FormatTimeNegativeExample | src/components/VideoPlayer.tsx:61-67 | -30 s shows as `-1:-30`: the minutes are floored to -1 while the truncating remainder keeps the sign |
| VolumeIcon.StrLessEqTotalOrder | src/components/VideoPlayer.tsx:128-130 | the string `<=` used by the icon is reflexive, antisymmetric, transitive and total |
| VolumeIcon.SliderTextRoundTrip | src/components/VideoPlayer.tsx:200-208 | the slider texts `"0"`, `"0.1"`…`"0.9"`, `"1"` and the tenths they stand for determine each other |
| VolumeIcon.Classify | src/components/VideoPlayer.tsx:125-135 | `changeVolumeIcon` cuts the texts into bands: Mute exactly for `"0"`; otherwise Low up to `"0.4"`, Medium above `"0.4"` up to `"0.7"`, High above `"0.7"`. An unmounted slider (`undefined`) gives High |
| VolumeIcon.SliderIconMatchesThresholds | src/components/VideoPlayer.tsx:125-135 | on every slider value, `changeVolumeIcon`'s string comparisons pick the icon given by the thresholds 0, (0, 0.4], (0.4, 0.7], (0.7, 1]. `"1"` compares above `"0.7"` and is High |
| VolumeIcon.SliderIconMonotone | src/components/VideoPlayer.tsx:125-135 | a louder slider value never classifies as a quieter icon |
| VolumeIcon.MuteIconExactlyAtZero | src/components/VideoPlayer.tsx:125-127 | a slider value classifies as the mute icon exactly at 0. An unmounted slider (`undefined`) gives High |
| Player.Initial | src/components/VideoPlayer.tsx:28-35 | the first state is paused and flagged muted, with the slider at 0 (which classifies as the mute icon), while the element is unmuted at its default full volume 10 |
| Player.Source | src/components/VideoPlayer.tsx:175 | the bound file agrees with the quality checkboxes: a checked box is the bound file's box, and that box is checked exactly when the quality is its value |
| Player.TogglePlay | src/components/VideoPlayer.tsx:39-47 | the flag becomes the opposite of the one the closure saw, the command sent (only with an element) matches the new flag, and nothing else changes |
| Player.OnPlay | src/components/VideoPlayer.tsx:177 | the `play` event sets the flag whatever it was, and changes nothing else |
| Player.OnPause | src/components/VideoPlayer.tsx:178 | the `pause` event clears the flag whatever it was, and changes nothing else |
| Player.ForwardVideo | src/components/VideoPlayer.tsx:49-53 | the element's position moves 15 s ahead, and `backwardVideo` undoes it exactly. Without an element nothing changes |
| Player.BackwardVideo | src/components/VideoPlayer.tsx:55-59 | the element's position moves 15 s back with no clamping. Without an element nothing changes |
| Player.HandleChangeRange | src/components/VideoPlayer.tsx:95-99 | the progress bar holds v and the element, if there is one, moves to v. Nothing else changes |
| Player.HandleVolumeChange | src/components/VideoPlayer.tsx:101-111 | the slider takes the new value, `isMuted` is set exactly when it is 0, and the element takes that volume while its own muted flag is kept. Nothing else changes |
| Player.ElapsedText | src/components/VideoPlayer.tsx:185 | the elapsed display of a non-negative `currentTime` reads back as its minutes and seconds, with padded fields. A negative one starts with a minus sign |
| Player.RemainingText | src/components/VideoPlayer.tsx:196 | the remaining display of a non-negative `remainingTime` reads back as its hours, total minutes and seconds, with padded fields. A negative one starts with a minus sign |
| Player.HandleMute | src/components/VideoPlayer.tsx:113-123 | `isMuted` flips from its latest value, while the element's muted flag is the opposite of the `isMuted` the closure saw. Slider and volume state agree and are 0 exactly when the element is muted. With a current view the element's flag equals the new `isMuted`. The slider goes to 0.2 after a seen mute and to 0 otherwise. Nothing else in the record changes |
| Player.HandleQualityChange | src/components/VideoPlayer.tsx:79-82 | the quality is recorded and the playing flag set, without a play command and without touching the element |
| Player.HandleTimeUpdate | src/components/VideoPlayer.tsx:84-93 | a poll leaves the displays, progress bar and element in sync (`InSync`) and copies the slider into the element's volume. Without an element nothing changes |
| Player.HandleKeyPress | src/components/VideoPlayer.tsx:137-155 | keys other than `' '`, `"Space"`, the arrows and `"m"` change nothing. The arrows only skip, and `"m"` only runs `handleMute`, and only with an element |
| PlayerLemmas.TogglePlayAgreesWithEvents | src/components/VideoPlayer.tsx:39-47 | a toggle negates the flag and sends pause if the player was playing, play if not (only with an element). It changes nothing else, and the element's answering event leaves the flag as set |
| PlayerLemmas.TogglePlayTwice | src/components/VideoPlayer.tsx:39-47 | two toggles restore the flag after sending one pause and one play, in order |
| PlayerLemmas.TogglePlayStaleView | src/components/VideoPlayer.tsx:39-47 | a toggle whose closure saw an out-of-date flag leaves the flag where it is |
| PlayerLemmas.PlayEventsLastWins | src/components/VideoPlayer.tsx:177-178 | `onPlay` and `onPause` set the flag unconditionally, so only the last event counts |
| PlayerLemmas.ForwardBackwardInverse | src/components/VideoPlayer.tsx:49-59 | skipping ahead then back, or back then ahead, restores the whole state |
| PlayerLemmas.SkipMovesOnlyPosition | src/components/VideoPlayer.tsx:49-59 | a skip moves only the element's position, by ±15, and does nothing without an element |
| PlayerLemmas.ChangeRangeThenSync | src/components/VideoPlayer.tsx:95-99 | dragging the progress bar to v moves the element to v, and the next poll shows v |
| PlayerLemmas.VolumeChangeEffect | src/components/VideoPlayer.tsx:101-111 | moving the slider sets `isMuted` exactly when the volume is 0 and gives the element that volume. Nothing else changes, not even the element's muted flag. The new slider value classifies as the mute icon exactly when `isMuted` is set |
| PlayerLemmas.SliderDoesNotUnmuteElement | src/components/VideoPlayer.tsx:101-111 | after an icon mute, raising the slider clears `isMuted` and the new value classifies as a non-mute icon, yet the element stays silent |
| PlayerLemmas.MuteTracksFlag | src/components/VideoPlayer.tsx:113-123 | with a current view, `handleMute` flips `isMuted` and leaves the element's muted flag equal to it. Slider and volume state agree, and are 0 exactly when muted |
| PlayerLemmas.MuteTwice | src/components/VideoPlayer.tsx:113-123 | two mutes with current views restore `isMuted`, and the element's muted flag ends equal to it. The slider ends at the fixed 0.2, not the earlier level, when it started unmuted, and at 0 when it started muted |
| PlayerLemmas.MuteTwiceStaleMuted | src/components/VideoPlayer.tsx:113-123 | two mutes whose closure saw `isMuted` set both unmute. The flag comes back to true, but the slider is at 0.2 and the element is unmuted |
| PlayerLemmas.UnmuteAudibleAfterSync | src/components/VideoPlayer.tsx:84-123 | an unmute becomes audible at volume 0.2 once the next poll copies the slider into the element |
| PlayerLemmas.MuteSilent | src/components/VideoPlayer.tsx:113-123 | a mute silences the element at once, and the next poll zeroes the element's volume |
| PlayerLemmas.QualityChangeEffect | src/components/VideoPlayer.tsx:79-82 | choosing a quality sets the playing flag without sending a play command and leaves the element untouched (no position restore). The 1080p file is bound exactly for `"1080p"`. Choosing again changes nothing |
| PlayerLemmas.CheckedBoxIsBoundFile | src/components/VideoPlayer.tsx:229-246 | ticking either quality checkbox binds that box's file and leaves exactly that box checked. The first render binds the 720p file with the 720p box checked |
| PlayerLemmas.TimeUpdateSyncs | src/components/VideoPlayer.tsx:84-93 | a poll leaves displays, progress bar and element in sync and sets the element's volume to the slider's value. It does nothing without an element |
| PlayerLemmas.TimeUpdateFixpoints | src/components/VideoPlayer.tsx:84-93 | a poll changes nothing exactly when the state is in sync, so a poll is idempotent |
| PlayerLemmas.TimeUpdateKeepsTransport | src/components/VideoPlayer.tsx:84-93 | a poll moves neither position, duration nor muted flag, and changes no play or mute state |
| PlayerLemmas.SyncedDisplaysReadBack | src/components/VideoPlayer.tsx:84-93 | after a poll within the video, the elapsed text reads back as the position and the remaining text as duration − position |
| PlayerLemmas.PastEndShowsMinus | src/components/VideoPlayer.tsx:87 | past the end, the remaining-time text starts with a minus sign |
| PlayerLemmas.KeyPressMatchesTable | src/components/VideoPlayer.tsx:137-155 | the key handler's chain of tests does exactly what the key table says. `' '` toggles; `"Space"` toggles only with an element; the arrows skip ±15; `"m"` mutes only with an element; any other key changes nothing |
| PlayerLemmas.ArrowKeysInverse | src/components/VideoPlayer.tsx:143-150 | the right arrow followed by the left arrow restores the state |
| PlayerLemmas.HandlersKeepValid | src/components/VideoPlayer.tsx:101-123 | every handler keeps the volume state and the element's volume within 0..10 tenths |
| Session.Start | src/components/VideoPlayer.tsx:125-163 | the first listener is registered in a render without an element, and it sees the player paused and muted. The first icon is High, computed before the slider was mounted, although the slider's 0 classifies as Mute |
| Session.StepKeepsValid | src/components/VideoPlayer.tsx:137-170 | every event keeps volumes within the slider's range |
| Session.ListenerSeesPlaying | src/components/VideoPlayer.tsx:157-163 | `isPlaying` is an effect dependency, so the listener always sees the current play flag and the space key toggles from it |
| Session.HandleEffects | src/components/VideoPlayer.tsx:125-244 | the markup's handlers act on the current state: a click toggles from the current play flag; the element's play/pause events set the flag; the slider mutes exactly at 0; the icon keeps the element's muted flag equal to the new `isMuted`; a quality pick records it and flags playing; the range moves the element; a poll syncs; the skips undo each other. The keydown listener (space, `m`) acts on the view it was registered with |
| Session.Rerender | src/components/VideoPlayer.tsx:157-163 | the listener after an event is the old one or one registered in this render, and it is replaced only if React state changed and a dependency differs from the values it was registered with (the position, which counts as changed while playing, the play flag, and `isMuted` when that is a dependency). When both hold it is replaced by this render's listener. After a render, the listener holds the render's position and play flag, and also its `isMuted` when that is a dependency |
| Session.Redraw | src/components/VideoPlayer.tsx:209 | without a render the icon stays as drawn. After a render it is the numeric-threshold icon of the slider's value, and it is Mute exactly at 0 |
| Session.KeyMuteWhilePaused | src/components/VideoPlayer.tsx:151-163 | one `"m"` while paused, with a listener that saw the player muted and an unchanged position: the slider is at 0.2 and the element unmuted, `isMuted` flips, and the listener is kept |
| Session.RepeatedTicks | src/components/VideoPlayer.tsx:165-170 | a second poll right after a poll changes no modelled state: the player, the listener and the icon stay as the first poll left them |
| Session.SliderToZeroShowsMute | src/components/VideoPlayer.tsx:101-135 | moving the slider to 0 while unmuted sets `isMuted`, which re-renders and draws the mute icon |
| Session.SliderMoveKeepsIcon | src/components/VideoPlayer.tsx:101-135 | moving the slider to a non-zero value while unmuted changes no React state, so no render happens and the icon on screen stays as it was |
| Session.IconLagsBehindSlider | src/components/VideoPlayer.tsx:101-135 | from the first commit, slider to 0.3 draws the low icon; slider to 0.8 then leaves the low icon on screen although 0.8 classifies as High |
| Session.RaisingSliderAfterIconMute | src/components/VideoPlayer.tsx:101-135 | after an icon mute, raising the slider clears `isMuted`, re-renders and draws the new value's non-mute icon, yet the element stays muted and silent |
| Session.KeyMuteNeverMutesWhilePaused | src/components/VideoPlayer.tsx:157-163 | while paused, with the position unchanged, a listener that saw `isMuted` set unmutes on every `"m"`. After any number of presses the slider is at 0.2 and the element is unmuted, while `isMuted` flips |
| Session.KeyMuteTwiceVersusIconTwice | src/components/VideoPlayer.tsx:113-163 | muted and paused: two `"m"` presses end with `isMuted` true but the slider at 0.2 and the element unmuted, whereas two icon clicks end muted with the slider at 0 |
| Session.FixedListenerSeesCurrent | src/components/VideoPlayer.tsx:157-163 | with `isMuted` also a dependency, the listener keeps seeing the current state |
| Session.FixedKeyMuteTracksFlag | src/components/VideoPlayer.tsx:152-163 | with the corrected wiring, `"m"` keeps the element's muted flag equal to `isMuted`, and two presses restore both |

## Findings

| source | as written | input that shows it | evidently intended | confidence | as-written member | corrected member |
|---|---|---|---|---|---|---|
| src/components/VideoPlayer.tsx:157-163 | the keydown listener is re-registered only when the position or `isPlaying` changes, so its `handleMute` branches on the `isMuted` of an older render | muted and paused, press `m` twice: `isMuted` ends true but the slider is at 0.2 and the element unmuted, and every further `m` unmutes again | `m` toggles mute as the icon does (`isMuted` among the effect's dependencies) | medium, not executed | Session.KeyMuteNeverMutesWhilePaused | Session.FixedKeyMuteTracksFlag |

## Left out

- JSX markup, styled-components CSS, the react-icons components and the progress bar's width percentage (line 535, a floating-point division that can be NaN) are presentation only. The icon is modelled as an enum value.
- Floating point is not modelled. Positions and durations are whole seconds with `Math.floor` already applied, and volumes are tenths. An undefined or NaN duration before the metadata loads is not modelled.
- The browser's clamping of the element's `currentTime` to [0, duration], and its clamping of a range input's value, are host behaviour the component does not implement. The model does not clamp, which is why positions and remaining times can be negative.
- `play()` and `pause()` are recorded as commands and not simulated. The element's reload after a source change is host behaviour and is not modelled: the reset of its position and the autoplay.
- `setInterval` scheduling is not modelled beyond a `Tick` event. The effect at lines 165-170 adds one more interval each time it re-runs and never clears one, so the number of running intervals grows without bound. The model does not count intervals, and this growth in timers and work per second is not represented. Listener removal on unmount is not modelled.
- Session: the effect's position dependency is the element's fractional `currentTime`. The model counts it as changed on every render while the player is flagged playing, and compares whole seconds otherwise.
- Session: a render is taken to happen exactly when some React state value changed.
- HandleMute requires a mounted element. The source dereferences the element and slider refs without a guard (lines 117-121) and would throw there. Its callers reach it only with the element mounted.
- The settings popup's open/closed flag (line 226) is presentation state and is not modelled.
- The `console.log` calls are not modelled.
- Number rendering in exponent notation (1e21 and above) is not modelled.
- The `"Space"` key test is modelled as written, although browsers report the space bar's `key` as `" "`.
- Hiding the controls after the mouse rests, wheel-driven volume and a remembered volume to restore on unmute are not part of this component.

=== FILE: decimal.dfy ===
/**
 Decimal rendering of whole numbers, as JavaScript's `Number.prototype.toString()`
 produces it for an integer-valued number, and the digit parser that inverts it.
 */
module Decimal {

  predicate IsDigit(c: char) {
    '0' <= c <= '9'
  }

  predicate AllDigits(s: string) {
    forall i :: 0 <= i < |s| ==> IsDigit(s[i])
  }

  /** The character of a single decimal digit. */
  function DigitChar(d: nat): (c: char)
    requires d < 10
    ensures IsDigit(c)
    ensures c as int - '0' as int == d
  {
    (('0' as int) + d) as char
  }

  /** The value of a single decimal digit character. */
  function DigitValue(c: char): (d: nat)
    requires IsDigit(c)
    ensures d < 10
    ensures DigitChar(d) == c
  {
    c as int - '0' as int
  }

  /** The shortest decimal numeral of `n`: no leading zero except for `n == 0` itself. */
  function NatToString(n: nat): (s: string)
    ensures |s| >= 1
    ensures AllDigits(s)
    decreases n
  {
    if n < 10 then [DigitChar(n)] else NatToString(n / 10) + [DigitChar(n % 10)]
  }

  /** The numeral of `n` has no leading zero except for 0 itself, one digit exactly below 10, and at most two exactly below 100. */
  lemma {:induction false} NatToStringShape(n: nat)
    ensures NatToString(n)[0] == '0' <==> n == 0
    ensures |NatToString(n)| == 1 <==> n < 10
    ensures |NatToString(n)| <= 2 <==> n < 100
    decreases n
  {
    if n >= 10 {
      NatToStringShape(n / 10);
    }
  }

  /** JavaScript's rendering of an integer-valued number: a minus sign before the numeral of its magnitude. */
  function IntToString(n: int): (s: string)
    ensures |s| >= 1
    ensures s[0] == '-' <==> n < 0
    ensures n >= 0 ==> AllDigits(s)
    ensures n < 0 ==> |s| >= 2 && AllDigits(s[1..])
    ensures n >= 0 ==> DigitsValue(s) == n && (s[0] == '0' ==> n == 0)
    ensures n < 0 ==> DigitsValue(s[1..]) == -n && s[1] != '0'
  {
    if n < 0 then
      NatToStringRoundTrip(-n);
      NatToStringShape(-n);
      assert ("-" + NatToString(-n))[1..] == NatToString(-n);
      "-" + NatToString(-n)
    else
      NatToStringRoundTrip(n);
      NatToStringShape(n);
      NatToString(n)
  }

  /** Different integers never render the same text. */
  lemma IntToStringInjective(m: int, n: int)
    requires IntToString(m) == IntToString(n)
    ensures m == n
  {
  }

  /** The value of a numeral, read most-significant digit first; leading zeros are allowed. */
  function DigitsValue(s: string): nat
    requires AllDigits(s)
  {
    if |s| == 0 then 0 else 10 * DigitsValue(s[..|s| - 1]) + DigitValue(s[|s| - 1])
  }

  /** Reading back a rendered numeral gives the number that was rendered. */
  lemma {:induction false} NatToStringRoundTrip(n: nat)
    ensures DigitsValue(NatToString(n)) == n
    decreases n
  {
    var s := NatToString(n);
    if n >= 10 {
      NatToStringRoundTrip(n / 10);
      assert s[..|s| - 1] == NatToString(n / 10);
    }
  }

  /** Rendering is one-to-one: different numbers never show the same numeral. */
  lemma NatToStringInjective(m: nat, n: nat)
    requires NatToString(m) == NatToString(n)
    ensures m == n
  {
    NatToStringRoundTrip(m);
    NatToStringRoundTrip(n);
  }

  /** Leading zeros do not change the value of a numeral. */
  lemma {:induction false} LeadingZeroValue(s: string)
    requires AllDigits(s)
    ensures AllDigits("0" + s)
    ensures DigitsValue("0" + s) == DigitsValue(s)
    decreases |s|
  {
    var z := "0" + s;
    if |s| > 0 {
      assert z[..|z| - 1] == "0" + s[..|s| - 1];
      LeadingZeroValue(s[..|s| - 1]);
    }
  }
}

=== FILE: player.dfy ===
/**
 The player component as a state record and pure transitions: one function per
 event handler of the component. The record holds the component's React state,
 the values of the progress bar and the volume slider it writes through refs,
 and the `<video>` element's properties (absent while the element is not
 mounted). Times are whole seconds and volumes are tenths of full volume.

 A handler's closure sees the React state of the render that created it; the
 `seen` argument of the handlers that read state is that view. Handlers wired in
 the markup are recreated on every render and see the current state.
 */
module Player {
  import opened Wrappers
  import opened TimeFormat
  import opened VolumeIcon

  /** A media command the player issues to the element; playback itself is the host's. */
  datatype Command = Play | Pause

  /** The element's position and duration (seconds), volume (tenths) and muted flag. */
  datatype Media = Media(position: int, duration: nat, volume: nat, muted: bool)

  /** The video file bound to the element. */
  datatype Rendition = Video720 | Video1080

  /** The React state the handlers read, as one render saw it. */
  datatype View = View(isPlaying: bool, isMuted: bool)

  datatype Player = Player(
    isPlaying: bool,
    isMuted: bool,
    quality: string,
    currentTime: int,     // displayed elapsed seconds
    remainingTime: int,   // displayed remaining seconds
    duration: nat,        // duration handed to the progress bar
    volume: nat,          // the `volume` state, in tenths; written only by `handleMute`
    slider: Tenths,       // the volume slider's value
    progressMax: nat,     // the progress bar's max
    progressValue: int,   // the progress bar's value
    video: Option<Media>,
    issued: seq<Command>) // the play and pause commands sent to the element, oldest first

  /** The view of a handler created in the current render. */
  function Current(p: Player): View {
    View(p.isPlaying, p.isMuted)
  }

  /** The volume state and the element's volume stay within the slider's range. */
  predicate Valid(p: Player) {
    && p.volume <= 10
    && (p.video.Some? ==> p.video.value.volume <= 10)
  }

  /**
   The component as first rendered over a freshly loaded element of the given
   duration: paused, flagged muted, 720p, slider at "0", the progress bar with a
   range input's default max of 100, and the element at its default full volume.
   */
  function Initial(duration: nat): (p: Player)
    ensures Valid(p)
    ensures !p.isPlaying && p.isMuted && SliderIcon(p.slider) == Mute
    ensures p.video.Some? && !p.video.value.muted && p.video.value.volume == 10 && p.slider == 0
  {
    Player(false, true, "720p", 0, 0, 0, 0, 0, 100, 0, Some(Media(0, duration, 10, false)), [])
  }

  /** The `value` of the quality checkbox for each file. */
  function QualityLabel(r: Rendition): string {
    match r
    case Video720 => "720p"
    case Video1080 => "1080p"
  }

  /** The quality checkboxes shown checked: each is checked when the quality equals its value. */
  function CheckedBoxes(p: Player): set<Rendition> {
    (if p.quality == "720p" then {Video720} else {}) + (if p.quality == "1080p" then {Video1080} else {})
  }

  /**
   The file the `<video>` element is bound to. A checked box is always the box of
   the bound file, and the bound file's box is checked exactly when the quality is
   that box's value; any other quality binds the 720p file with no box checked.
   */
  function Source(p: Player): (r: Rendition)
    ensures CheckedBoxes(p) <= {r}
    ensures CheckedBoxes(p) == {r} <==> p.quality == QualityLabel(r)
  {
    if p.quality == "1080p" then Video1080 else Video720
  }

  /** The command log after sending `c` to the element, if there is one (`videoRef.current?.play()`). */
  function Send(p: Player, c: Command): seq<Command> {
    if p.video.Some? then p.issued + [c] else p.issued
  }

  /**
   `togglePlay`: branches on the flag its closure saw, not on the element's own
   state. The flag becomes the opposite of the seen one, the command sent (only
   with an element) is the one that matches the new flag, and nothing else changes.
   */
  function TogglePlay(p: Player, seen: View): (q: Player)
    ensures q.isPlaying == !seen.isPlaying
    ensures p.video.Some? ==> q.issued == p.issued + [if q.isPlaying then Play else Pause]
    ensures p.video.None? ==> q.issued == p.issued
    ensures q.(isPlaying := p.isPlaying, issued := p.issued) == p
  {
    if seen.isPlaying then p.(isPlaying := false, issued := Send(p, Pause))
    else p.(isPlaying := true, issued := Send(p, Play))
  }

  /** The element's `play` event: the flag is set whatever it was, and nothing else changes. */
  function OnPlay(p: Player): (q: Player)
    ensures q.isPlaying && q.(isPlaying := p.isPlaying) == p
  {
    p.(isPlaying := true)
  }

  /** The element's `pause` event: the flag is cleared whatever it was, and nothing else changes. */
  function OnPause(p: Player): (q: Player)
    ensures !q.isPlaying && q.(isPlaying := p.isPlaying) == p
  {
    p.(isPlaying := false)
  }

  /** Moves the element's position by `delta` seconds; no clamping is done here. */
  function Seek(p: Player, delta: int): Player {
    match p.video
    case None => p
    case Some(m) => p.(video := Some(m.(position := m.position + delta)))
  }

  /** `forwardVideo`: fifteen seconds ahead, undone by `backwardVideo`; nothing without an element. */
  function ForwardVideo(p: Player): (q: Player)
    ensures p.video.Some? ==> q.video.Some? && q.video.value.position == p.video.value.position + 15
    ensures p.video.None? ==> q == p
    ensures BackwardVideo(q) == p
  {
    Seek(p, 15)
  }

  /** `backwardVideo`: fifteen seconds back, with no clamping at 0; nothing without an element. */
  function BackwardVideo(p: Player): (q: Player)
    ensures p.video.Some? ==> q.video.Some? && q.video.value.position == p.video.value.position - 15
    ensures p.video.None? ==> q == p
  {
    Seek(p, -15)
  }

  /** `handleChangeRange`: the user drags the progress bar to `v` and the element follows, if there is one. */
  function HandleChangeRange(p: Player, v: int): (q: Player)
    ensures q.progressValue == v
    ensures q.video.Some? == p.video.Some?
    ensures p.video.Some? ==> q.video.value == p.video.value.(position := v)
    ensures q.(progressValue := p.progressValue, video := p.video) == p
  {
    var q := p.(progressValue := v);
    match q.video
    case None => q
    case Some(m) => q.(video := Some(m.(position := v)))
  }

  /**
   `handleVolumeChange`: the user moves the slider to `tenths`; the element takes
   that volume and the muted flag follows whether the slider's text is "0".
   The element's own muted flag is left as it is.
   */
  function HandleVolumeChange(p: Player, tenths: nat): (q: Player)
    requires tenths <= 10
    ensures q.isMuted <==> tenths == 0
    ensures q.slider == tenths
    ensures q.video.Some? == p.video.Some?
    ensures p.video.Some? ==> q.video.value == p.video.value.(volume := tenths)
    ensures q.(isMuted := p.isMuted, slider := p.slider, video := p.video) == p
  {
    SliderTextRoundTrip(tenths, "0");
    var q := p.(slider := tenths, isMuted := SliderText(tenths) == "0");
    match q.video
    case None => q
    case Some(m) => q.(video := Some(m.(volume := tenths)))
  }

  /**
   `handleMute`: flips the muted flag from its latest value, and branches on the
   flag its closure saw: unmuting puts slider and volume state at 0.2 and clears
   the element's muted flag, muting puts them at 0 and sets it. The element's
   volume itself is left for the next sync to copy from the slider.
   */
  function HandleMute(p: Player, seen: View): (q: Player)
    requires p.video.Some?
    ensures q.isMuted == !p.isMuted
    ensures q.video.Some? && q.video.value.muted == !seen.isMuted
    ensures q.slider == q.volume && (q.slider == 0 <==> q.video.value.muted)
    ensures seen == Current(p) ==> q.video.value.muted == q.isMuted
    ensures q.video.value.(muted := p.video.value.muted) == p.video.value
    ensures q.slider == (if seen.isMuted then 2 else 0)
    ensures q.(isMuted := p.isMuted, volume := p.volume, slider := p.slider, video := p.video) == p
  {
    var m := p.video.value;
    if seen.isMuted then
      p.(isMuted := !p.isMuted, volume := 2, slider := 2, video := Some(m.(muted := false)))
    else
      p.(isMuted := !p.isMuted, volume := 0, slider := 0, video := Some(m.(muted := true)))
  }

  /** `handleQualityChange`: records the chosen quality and flags the player as playing, without a play command. */
  function HandleQualityChange(p: Player, quality: string): (q: Player)
    ensures q.quality == quality && q.isPlaying
    ensures q.issued == p.issued && q.video == p.video
    ensures q.(quality := p.quality, isPlaying := p.isPlaying) == p
  {
    p.(quality := quality, isPlaying := true)
  }

  /**
   `handleTimeUpdate`, one run of the one-second poll: mirrors the element's
   position and duration into the displays and the progress bar, and copies the
   slider's value into the element's volume. Nothing happens without an element.
   */
  function HandleTimeUpdate(p: Player): (q: Player)
    ensures InSync(q)
    ensures p.video.None? ==> q == p
    ensures p.video.Some? ==> q.video.Some? && q.video.value == p.video.value.(volume := p.slider)
  {
    match p.video
    case None => p
    case Some(m) =>
      p.(currentTime := m.position,
         remainingTime := m.duration - m.position,
         progressMax := m.duration,
         progressValue := m.position,
         duration := m.duration,
         video := Some(m.(volume := p.slider)))
  }

  /**
   `handleKeyPress`: the tests run one after another, as written, on the state the
   previous one left; `seen` is the view of the render the listener was created in.
   */
  function HandleKeyPress(p: Player, key: string, seen: View): (q: Player)
    ensures key !in {" ", "Space", "ArrowRight", "ArrowLeft", "m"} ==> q == p
    ensures key == "ArrowRight" ==> q == ForwardVideo(p)
    ensures key == "ArrowLeft" ==> q == BackwardVideo(p)
    ensures key == "m" ==> q == if p.video.Some? then HandleMute(p, seen) else p
  {
    var p1 := if key == " " || (key == "Space" && p.video.Some?) then TogglePlay(p, seen) else p;
    var p2 := if key == "ArrowRight" then ForwardVideo(p1) else p1;
    var p3 := if key == "ArrowLeft" then BackwardVideo(p2) else p2;
    if key == "m" && p3.video.Some? then HandleMute(p3, seen) else p3
  }

  // ---------------------------------------------------------------------------
  // Displays

  /** The elapsed-time text under the video. */
  function ElapsedText(p: Player): (r: string)
    ensures p.currentTime >= 0 ==> ClockFields(r) == Some([p.currentTime / 60, p.currentTime % 60])
    ensures p.currentTime >= 0 ==> AllPadded(Split(r, ':'))
    ensures p.currentTime < 0 ==> |r| > 0 && r[0] == '-'
  {
    FormatTime(p.currentTime)
  }

  /** The remaining-time text under the video. */
  function RemainingText(p: Player): (r: string)
    ensures p.remainingTime >= 0 ==> ClockFields(r) == Some([p.remainingTime / 3600, p.remainingTime / 60, p.remainingTime % 60])
    ensures p.remainingTime >= 0 ==> AllPadded(Split(r, ':'))
    ensures p.remainingTime < 0 ==> |r| > 0 && r[0] == '-'
  {
    FormatDuration(p.remainingTime)
  }

  /** The element makes sound. */
  predicate Audible(p: Player) {
    p.video.Some? && !p.video.value.muted && p.video.value.volume > 0
  }

  /** The displays and the element agree with one another, as one poll leaves them. */
  predicate InSync(p: Player) {
    match p.video
    case None => true
    case Some(m) =>
      && p.currentTime == m.position
      && p.currentTime + p.remainingTime == m.duration
      && p.progressValue == p.currentTime
      && p.progressMax == p.duration == m.duration
      && m.volume == p.slider
  }
}

=== FILE: player_lemmas.dfy ===
/**
 Properties of the player's transitions: what each handler changes and keeps,
 which transitions undo one another, and what one sync leaves on screen.
 Handlers are taken with the current view unless a lemma says otherwise.
 */
module PlayerLemmas {
  import opened Wrappers
  import opened Decimal
  import opened TimeFormat
  import opened VolumeIcon
  import opened Player

  // ---------------------------------------------------------------------------
  // Play and pause

  /**
   Toggling sends the element the command opposite to the flag, and the element's
   answering event leaves the flag where the toggle put it.
   */
  lemma TogglePlayAgreesWithEvents(p: Player)
    ensures var q := TogglePlay(p, Current(p));
      && q.isPlaying == !p.isPlaying
      && (p.video.Some? ==> q.issued == p.issued + [if p.isPlaying then Pause else Play])
      && (p.video.None? ==> q.issued == p.issued)
      && (p.isPlaying ==> OnPause(q) == q)
      && (!p.isPlaying ==> OnPlay(q) == q)
      && q.(isPlaying := p.isPlaying, issued := p.issued) == p
  {
  }

  /** Toggling twice restores the flag, after sending one pause and one play in the right order. */
  lemma TogglePlayTwice(p: Player)
    ensures var q := TogglePlay(p, Current(p));
      var r := TogglePlay(q, Current(q));
      && r.isPlaying == p.isPlaying
      && (p.video.Some? ==> r.issued == p.issued + (if p.isPlaying then [Pause, Play] else [Play, Pause]))
      && (p.video.None? ==> r == p)
      && r.(issued := p.issued) == p
  {
    var q := TogglePlay(p, Current(p));
    if p.video.Some? {
      assert q.issued == p.issued + [if p.isPlaying then Pause else Play];
    }
  }

  /** A toggle created in a render where the flag was different acts on the stale flag: it repeats the last command. */
  lemma TogglePlayStaleView(p: Player, seen: View)
    requires seen.isPlaying != p.isPlaying
    ensures TogglePlay(p, seen).isPlaying == p.isPlaying
  {
  }

  /** The element's events set the flag whatever it was: only the last one counts. */
  lemma PlayEventsLastWins(p: Player)
    ensures OnPlay(OnPause(p)) == OnPlay(p) && OnPlay(p).isPlaying
    ensures OnPause(OnPlay(p)) == OnPause(p) && !OnPause(p).isPlaying
  {
  }

  // ---------------------------------------------------------------------------
  // Seeking

  /** Skipping ahead then back, or back then ahead, restores the state exactly: nothing clamps. */
  lemma ForwardBackwardInverse(p: Player)
    ensures BackwardVideo(ForwardVideo(p)) == p
    ensures ForwardVideo(BackwardVideo(p)) == p
  {
  }

  /** A skip moves only the element's position, by fifteen seconds. */
  lemma SkipMovesOnlyPosition(p: Player)
    ensures p.video.Some? ==> ForwardVideo(p).video.value.position == p.video.value.position + 15
    ensures p.video.Some? ==> BackwardVideo(p).video.value.position == p.video.value.position - 15
    ensures ForwardVideo(p).video.Some? == p.video.Some?
    ensures p.video.Some? ==> ForwardVideo(p).video.value.(position := p.video.value.position) == p.video.value
    ensures ForwardVideo(p).(video := p.video) == p
    ensures p.video.None? ==> ForwardVideo(p) == p && BackwardVideo(p) == p
  {
  }

  /** Dragging the progress bar to `v` then polling shows `v` as the elapsed time. */
  lemma ChangeRangeThenSync(p: Player, v: int)
    requires p.video.Some?
    ensures HandleTimeUpdate(HandleChangeRange(p, v)).currentTime == v
    ensures HandleTimeUpdate(HandleChangeRange(p, v)).progressValue == v
    ensures HandleTimeUpdate(HandleChangeRange(p, v)).video.value.position == v
  {
  }

  // ---------------------------------------------------------------------------
  // Volume

  /**
   Moving the slider: the muted flag is set exactly when the volume is zero, the
   element takes the new volume, and nothing else changes — not the element's
   own muted flag either.
   */
  lemma VolumeChangeEffect(p: Player, tenths: nat)
    requires tenths <= 10
    ensures var q := HandleVolumeChange(p, tenths);
      && (q.isMuted <==> tenths == 0)
      && q.slider == tenths
      && q.video.Some? == p.video.Some?
      && (q.video.Some? ==> q.video.value == p.video.value.(volume := tenths))
      && q.(isMuted := p.isMuted, slider := p.slider, video := p.video) == p
      && (q.isMuted <==> SliderIcon(q.slider) == Mute)
  {
    MuteIconExactlyAtZero(tenths);
    if tenths != 0 {
      assert SliderText(tenths) != "0" by {
        SliderTextRoundTrip(tenths, "0");
      }
    }
  }

  /**
   After muting with the icon, raising the slider clears the muted flag and shows a
   non-mute icon, yet the element stays muted: it makes no sound.
   */
  lemma SliderDoesNotUnmuteElement(p: Player, tenths: nat)
    requires p.video.Some? && p.video.value.muted
    requires 0 < tenths <= 10
    ensures var q := HandleVolumeChange(p, tenths);
      !q.isMuted && SliderIcon(q.slider) != Mute && !Audible(q)
  {
    VolumeChangeEffect(p, tenths);
  }

  /** Muting with a current view keeps the element's muted flag equal to the new muted flag. */
  lemma MuteTracksFlag(p: Player)
    requires p.video.Some?
    ensures var q := HandleMute(p, Current(p));
      && q.isMuted == !p.isMuted
      && q.video.value.muted == q.isMuted
      && q.slider == q.volume
      && (q.isMuted <==> q.slider == 0)
  {
  }

  /**
   Muting twice with current views restores the muted flag, and the element's
   muted flag ends equal to it; started unmuted, the slider comes back as the
   fixed 0.2, not as the level before.
   */
  lemma MuteTwice(p: Player)
    requires p.video.Some?
    ensures var q := HandleMute(p, Current(p));
      var r := HandleMute(q, Current(q));
      && r.isMuted == p.isMuted
      && r.video.value.muted == p.isMuted
      && r.slider == (if p.isMuted then 0 else 2)
      && r.video.value.(muted := p.video.value.muted) == p.video.value
  {
  }

  /**
   Muting twice through a handler whose view saw the flag set (a stale view the
   second time) unmutes twice: the flag comes back, but the slider is left at
   0.2 and the element unmuted.
   */
  lemma MuteTwiceStaleMuted(p: Player, seen: View)
    requires p.video.Some? && p.isMuted && seen.isMuted
    ensures var r := HandleMute(HandleMute(p, seen), seen);
      && r.isMuted
      && r.slider == 2 && r.volume == 2
      && !r.video.value.muted
  {
  }

  /** Unmuting becomes audible at the next sync, which copies the slider's 0.2 into the element. */
  lemma UnmuteAudibleAfterSync(p: Player)
    requires p.video.Some? && p.isMuted
    ensures var q := HandleTimeUpdate(HandleMute(p, Current(p)));
      Audible(q) && q.video.value.volume == 2
  {
  }

  /** Muting silences the element at once, and the next sync also zeroes its volume. */
  lemma MuteSilent(p: Player)
    requires p.video.Some? && !p.isMuted
    ensures !Audible(HandleMute(p, Current(p)))
    ensures HandleTimeUpdate(HandleMute(p, Current(p))).video.value.volume == 0
  {
  }

  // ---------------------------------------------------------------------------
  // Quality

  /**
   Choosing a quality selects the 1080p file exactly for "1080p", flags the player
   as playing without a play command, and leaves the element — its position
   included — as it was.
   */
  lemma QualityChangeEffect(p: Player, quality: string)
    ensures var q := HandleQualityChange(p, quality);
      && (Source(q) == Video1080 <==> quality == "1080p")
      && q.isPlaying
      && q.issued == p.issued
      && q.video == p.video
      && HandleQualityChange(q, quality) == q
  {
  }

  /**
   The quality checkboxes show the file that is playing: ticking either box binds
   that box's file and leaves exactly that box checked, and the first render binds
   the 720p file with the 720p box checked.
   */
  lemma CheckedBoxIsBoundFile(p: Player, r: Rendition, duration: nat)
    ensures var q := HandleQualityChange(p, QualityLabel(r));
      Source(q) == r && CheckedBoxes(q) == {r}
    ensures Source(Initial(duration)) == Video720 && CheckedBoxes(Initial(duration)) == {Video720}
  {
    var q := HandleQualityChange(p, QualityLabel(r));
    assert q.quality == QualityLabel(r);
  }

  // ---------------------------------------------------------------------------
  // The one-second poll

  /** One poll leaves the displays in sync with the element, and the element's volume at the slider's value. */
  lemma TimeUpdateSyncs(p: Player)
    ensures InSync(HandleTimeUpdate(p))
    ensures p.video.Some? ==> HandleTimeUpdate(p).video.value.volume == p.slider
    ensures p.video.None? ==> HandleTimeUpdate(p) == p
  {
  }

  /** A poll changes nothing exactly when the state is already in sync; so a second poll changes nothing. */
  lemma TimeUpdateFixpoints(p: Player)
    ensures HandleTimeUpdate(p) == p <==> InSync(p)
    ensures HandleTimeUpdate(HandleTimeUpdate(p)) == HandleTimeUpdate(p)
  {
    if InSync(p) && p.video.Some? {
      var m := p.video.value;
      assert m.(volume := p.slider) == m;
    }
  }

  /** A poll moves neither the element's position nor its duration, nor the play and mute flags. */
  lemma TimeUpdateKeepsTransport(p: Player)
    ensures var q := HandleTimeUpdate(p);
      && q.isPlaying == p.isPlaying && q.isMuted == p.isMuted
      && q.slider == p.slider && q.issued == p.issued && q.quality == p.quality
      && q.video.Some? == p.video.Some?
      && (q.video.Some? ==> q.video.value.position == p.video.value.position
                            && q.video.value.duration == p.video.value.duration
                            && q.video.value.muted == p.video.value.muted)
  {
  }

  /**
   After a poll with the position inside the video, the elapsed-time text reads
   back as the position and the remaining-time text as the seconds left.
   */
  lemma SyncedDisplaysReadBack(p: Player)
    requires p.video.Some? && 0 <= p.video.value.position <= p.video.value.duration
    ensures var q := HandleTimeUpdate(p);
      var e := ClockFields(ElapsedText(q));
      var r := ClockFields(RemainingText(q));
      && e.Some? && |e.value| == 2 && 60 * e.value[0] + e.value[1] == p.video.value.position
      && r.Some? && |r.value| == 3
      && 60 * r.value[1] + r.value[2] == p.video.value.duration - p.video.value.position
  {
    var q := HandleTimeUpdate(p);
    FormatTimeReadsBack(q.currentTime);
    FormatDurationReadsBack(q.remainingTime);
  }

  /** Past the end (nothing here clamps the position) the remaining-time text starts with a minus sign. */
  lemma PastEndShowsMinus(p: Player)
    requires p.video.Some? && p.video.value.position > p.video.value.duration
    ensures RemainingText(HandleTimeUpdate(p))[0] == '-'
  {
    NegativeTimes(HandleTimeUpdate(p).remainingTime);
  }

  // ---------------------------------------------------------------------------
  // Keys

  /** What a key does, as a table: the reference the dispatcher is checked against. */
  datatype KeyAction = Toggle | Ahead | Back | ToggleMute | Ignore

  function KeyTable(key: string, mounted: bool): KeyAction {
    match key
    case " " => Toggle
    case "Space" => if mounted then Toggle else Ignore
    case "ArrowRight" => Ahead
    case "ArrowLeft" => Back
    case "m" => if mounted then ToggleMute else Ignore
    case _ => Ignore
  }

  function Perform(p: Player, a: KeyAction, seen: View): Player {
    match a
    case Toggle => TogglePlay(p, seen)
    case Ahead => ForwardVideo(p)
    case Back => BackwardVideo(p)
    case ToggleMute => if p.video.Some? then HandleMute(p, seen) else p
    case Ignore => p
  }

  /**
   The chain of tests in the key handler does exactly what the table says for
   every key: at most one action, "Space" and "m" only with an element, and any
   other key changes nothing.
   */
  lemma KeyPressMatchesTable(p: Player, key: string, seen: View)
    ensures HandleKeyPress(p, key, seen) == Perform(p, KeyTable(key, p.video.Some?), seen)
  {
  }

  /** The right then the left arrow restore the state. */
  lemma ArrowKeysInverse(p: Player, seen: View)
    ensures HandleKeyPress(HandleKeyPress(p, "ArrowRight", seen), "ArrowLeft", seen) == p
  {
    KeyPressMatchesTable(p, "ArrowRight", seen);
    KeyPressMatchesTable(ForwardVideo(p), "ArrowLeft", seen);
    ForwardBackwardInverse(p);
  }

  // ---------------------------------------------------------------------------
  // Volume range

  /** Every handler keeps the volumes within the slider's range. */
  lemma HandlersKeepValid(p: Player, key: string, tenths: nat, v: int, quality: string)
    requires Valid(p) && tenths <= 10
    ensures Valid(TogglePlay(p, Current(p))) && Valid(OnPlay(p)) && Valid(OnPause(p))
    ensures Valid(ForwardVideo(p)) && Valid(BackwardVideo(p)) && Valid(HandleChangeRange(p, v))
    ensures Valid(HandleVolumeChange(p, tenths)) && Valid(HandleQualityChange(p, quality))
    ensures Valid(HandleTimeUpdate(p)) && Valid(HandleKeyPress(p, key, Current(p)))
    ensures p.video.Some? ==> Valid(HandleMute(p, Current(p)))
  {
  }
}

=== FILE: session.dfy ===
/**
 The component over time: events, React's re-render, and the keydown listener.

 The listener is registered by an effect whose dependencies are the element's
 position read during render and `isPlaying` (VideoPlayer.tsx line 163). It closes
 over the state of the render that last re-ran the effect, and `isMuted` is not
 among the dependencies, so the listener can hold an old `isMuted`.

 A render happens when an event changed some React state (an update that stores
 equal values does not re-render); the effect then re-runs when a dependency
 differs from the values it last ran with. While the player is flagged playing,
 the element's fractional position has moved since the last render, so the
 position dependency counts as changed.

 The volume icon is computed during render from the slider's value (line 209),
 so it too changes only when a render happens: the slider itself is not React
 state, and moving it re-renders only when the muted flag changes.
 */
module Session {
  import opened Wrappers
  import opened VolumeIcon
  import opened Player
  import opened PlayerLemmas

  /** The registered keydown listener: the dependency values it was registered with, and what its closure saw. */
  datatype Listener = Listener(position: Option<int>, isPlaying: bool, isMuted: bool)

  /** The player, the registered keydown listener, and the volume icon the last render drew. */
  datatype Session = Session(player: Player, listener: Listener, icon: Icon)

  datatype Event =
    | ToggleClick              // the video itself or the play/pause button
    | KeyDown(key: string)
    | Played                   // the element's `play` event
    | Paused                   // the element's `pause` event
    | SkipForward
    | SkipBackward
    | SliderInput(tenths: nat)
    | IconClick
    | QualityInput(quality: string)
    | RangeInput(value: int)
    | Tick                     // one run of the one-second interval

  /** The position dependency: `videoRef.current?.currentTime`, undefined without an element. */
  function PositionDep(p: Player): Option<int> {
    match p.video
    case None => None
    case Some(m) => Some(m.position)
  }

  /** The component's `useState` values; a change of any of them causes a render. */
  datatype ReactState = ReactState(
    isPlaying: bool,
    isMuted: bool,
    quality: string,
    currentTime: int,
    remainingTime: int,
    duration: nat,
    volume: nat)

  /** The React state a player record holds. */
  function StateOf(p: Player): ReactState {
    ReactState(p.isPlaying, p.isMuted, p.quality, p.currentTime, p.remainingTime, p.duration, p.volume)
  }

  /** The listener the effect registers during a render of `p`. */
  function Listening(p: Player): Listener {
    Listener(PositionDep(p), p.isPlaying, p.isMuted)
  }

  /** What the listener's closure saw. */
  function ListenerView(l: Listener): View {
    View(l.isPlaying, l.isMuted)
  }

  /**
   The component after its first commit. The first render ran before the refs were
   attached: the effect registered its listener with no element (position
   `undefined`), and the icon was computed from an `undefined` slider value, which
   gives the high icon although the slider shows "0".
   */
  function Start(duration: nat): (s: Session)
    ensures Valid(s.player) && s.listener.isMuted && !s.listener.isPlaying
    ensures s.listener.position.None? && s.player.video.Some?
    ensures s.icon == High && SliderIcon(s.player.slider) == Mute
  {
    var p := Initial(duration);
    Session(p, Listener(None, p.isPlaying, p.isMuted), Classify(None))
  }

  /** Events the source can deliver: the icon exists only with the element, the slider emits tenths up to ten. */
  predicate Enabled(s: Session, e: Event) {
    && (e.IconClick? ==> s.player.video.Some?)
    && (e.SliderInput? ==> e.tenths <= 10)
  }

  /** The handler an event runs; handlers in the markup see the current state, the key listener its own view. */
  function Handle(s: Session, e: Event): Player
    requires Enabled(s, e)
  {
    var p := s.player;
    match e
    case ToggleClick => TogglePlay(p, Current(p))
    case KeyDown(key) => HandleKeyPress(p, key, ListenerView(s.listener))
    case Played => OnPlay(p)
    case Paused => OnPause(p)
    case SkipForward => ForwardVideo(p)
    case SkipBackward => BackwardVideo(p)
    case SliderInput(tenths) => HandleVolumeChange(p, tenths)
    case IconClick => HandleMute(p, Current(p))
    case QualityInput(quality) => HandleQualityChange(p, quality)
    case RangeInput(v) => HandleChangeRange(p, v)
    case Tick => HandleTimeUpdate(p)
  }

  /**
   What each event's handler does. The handlers wired in the markup see the
   current state: a click toggles from the current play flag, and the icon keeps
   the element's muted flag equal to the React flag. The keydown listener acts on
   the view it was registered with.
   */
  lemma HandleEffects(s: Session, e: Event)
    requires Enabled(s, e)
    ensures e == ToggleClick ==> Handle(s, e).isPlaying == !s.player.isPlaying
    ensures e == KeyDown(" ") ==> Handle(s, e).isPlaying == !s.listener.isPlaying
    ensures e == Played ==> Handle(s, e).isPlaying
    ensures e == Paused ==> !Handle(s, e).isPlaying
    ensures e.SliderInput? ==> Handle(s, e).slider == e.tenths && (Handle(s, e).isMuted <==> e.tenths == 0)
    ensures e == IconClick ==> Handle(s, e).isMuted == !s.player.isMuted && Handle(s, e).video.Some? && Handle(s, e).video.value.muted == Handle(s, e).isMuted
    ensures e == KeyDown("m") && s.player.video.Some? ==> Handle(s, e).isMuted == !s.player.isMuted && Handle(s, e).video.Some? && Handle(s, e).video.value.muted == !s.listener.isMuted
    ensures e.QualityInput? ==> Handle(s, e).quality == e.quality && Handle(s, e).isPlaying
    ensures e.RangeInput? ==> Handle(s, e).video == if s.player.video.Some? then Some(s.player.video.value.(position := e.value)) else None
    ensures e == Tick ==> InSync(Handle(s, e))
    ensures e == SkipForward ==> BackwardVideo(Handle(s, e)) == s.player
    ensures e == SkipBackward ==> ForwardVideo(Handle(s, e)) == s.player
  {
    var p := s.player;
    match e
    case KeyDown(key) =>
      KeyPressMatchesTable(p, key, ListenerView(s.listener));
    case _ =>
  }

  /**
   A render of `after` re-runs the listener effect: some dependency differs from
   the values `l` was registered with. While playing, the element's fractional
   position has moved since the last render, so the position counts as changed.
   */
  predicate DepsChanged(after: Player, l: Listener, mutedIsDependency: bool) {
    || after.isPlaying
    || PositionDep(after) != l.position
    || after.isPlaying != l.isPlaying
    || (mutedIsDependency && after.isMuted != l.isMuted)
  }

  /**
   The listener after the render that follows an event. With `mutedIsDependency`
   the effect also depends on `isMuted`, which is the corrected wiring.
   */
  function Rerender(before: Player, after: Player, l: Listener, mutedIsDependency: bool): (r: Listener)
    ensures r == l || r == Listening(after)
    ensures r != l ==> StateOf(after) != StateOf(before) && DepsChanged(after, l, mutedIsDependency)
    ensures StateOf(after) != StateOf(before) && DepsChanged(after, l, mutedIsDependency) ==> r == Listening(after)
    ensures StateOf(after) != StateOf(before) ==>
      && r.position == PositionDep(after)
      && r.isPlaying == after.isPlaying
      && (mutedIsDependency ==> r.isMuted == after.isMuted)
  {
    if StateOf(after) == StateOf(before) then l
    else if && !after.isPlaying
            && PositionDep(after) == l.position
            && after.isPlaying == l.isPlaying
            && (mutedIsDependency ==> after.isMuted == l.isMuted)
    then l
    else Listening(after)
  }

  /** The icon after an event: redrawn from the slider's current value only when a render happens. */
  function Redraw(before: Player, after: Player, icon: Icon): (r: Icon)
    ensures StateOf(after) == StateOf(before) ==> r == icon
    ensures StateOf(after) != StateOf(before) ==> (r == Mute <==> after.slider == 0)
    ensures StateOf(after) != StateOf(before) ==> r == IconByLevel(after.slider)
  {
    if StateOf(after) == StateOf(before) then icon
    else
      SliderIconMatchesThresholds(after.slider);
      SliderIcon(after.slider)
  }

  function StepWith(s: Session, e: Event, mutedIsDependency: bool): Session
    requires Enabled(s, e)
  {
    var p := Handle(s, e);
    Session(p, Rerender(s.player, p, s.listener, mutedIsDependency), Redraw(s.player, p, s.icon))
  }

  /** One event as the component is written. */
  function Step(s: Session, e: Event): Session
    requires Enabled(s, e)
  {
    StepWith(s, e, false)
  }

  /** One event with `isMuted` among the listener effect's dependencies. */
  function FixedStep(s: Session, e: Event): Session
    requires Enabled(s, e)
  {
    StepWith(s, e, true)
  }

  /** The listener's view of the play flag is the current one. */
  predicate SeesPlaying(s: Session) {
    s.listener.isPlaying == s.player.isPlaying
  }

  /** The listener's whole view is the current one. */
  predicate SeesCurrent(s: Session) {
    ListenerView(s.listener) == Current(s.player)
  }

  /** Every step keeps the volumes within the slider's range. */
  lemma StepKeepsValid(s: Session, e: Event, mutedIsDependency: bool)
    requires Valid(s.player) && Enabled(s, e)
    ensures Valid(StepWith(s, e, mutedIsDependency).player)
  {
    var p := s.player;
    match e
    case KeyDown(key) =>
      KeyPressMatchesTable(p, key, ListenerView(s.listener));
    case SliderInput(tenths) =>
    case _ =>
  }

  /**
   `isPlaying` is a dependency of the listener effect, so a listener that saw the
   current play flag still sees it after any step: the space key always toggles
   from the current flag.
   */
  lemma ListenerSeesPlaying(s: Session, e: Event)
    requires Enabled(s, e) && SeesPlaying(s)
    ensures SeesPlaying(Step(s, e))
    ensures e == KeyDown(" ") ==> Step(s, e).player == TogglePlay(s.player, Current(s.player))
  {
  }

  /** A second poll right after a poll changes no modelled state: player, listener and icon stay as the first poll left them. */
  lemma RepeatedTicks(s: Session)
    ensures Step(Step(s, Tick), Tick) == Step(s, Tick)
  {
    TimeUpdateFixpoints(s.player);
  }

  /** The icon shows what the slider holds. */
  predicate IconCurrent(s: Session) {
    s.icon == SliderIcon(s.player.slider)
  }

  /** Moving the slider to "0" from an unmuted state sets the muted flag, which re-renders and draws the mute icon. */
  lemma SliderToZeroShowsMute(s: Session)
    requires !s.player.isMuted
    ensures var t := Step(s, SliderInput(0));
      t.player.isMuted && t.icon == Mute && IconCurrent(t)
  {
    MuteIconExactlyAtZero(0);
  }

  /**
   Moving the slider between two non-zero values while unmuted changes no React
   state, so nothing re-renders and the icon stays as it was, whatever the slider
   now holds.
   */
  lemma SliderMoveKeepsIcon(s: Session, tenths: nat)
    requires !s.player.isMuted && 0 < tenths <= 10
    ensures var t := Step(s, SliderInput(tenths));
      t.icon == s.icon && t.player.slider == tenths && t.listener == s.listener
  {
    var p := Handle(s, SliderInput(tenths));
    assert StateOf(p) == StateOf(s.player);
  }

  /**
   From the first commit: slider to 0.3 unmutes, re-renders and draws the low
   icon; slider to 0.8 then leaves the low icon on screen although the slider's
   value classifies as high.
   */
  lemma IconLagsBehindSlider(duration: nat)
    ensures var s1 := Step(Start(duration), SliderInput(3));
      var s2 := Step(s1, SliderInput(8));
      && s1.icon == Low && IconCurrent(s1)
      && s2.icon == Low && SliderIcon(s2.player.slider) == High
  {
    SliderIconMatchesThresholds(3);
    SliderIconMatchesThresholds(8);
    var s1 := Step(Start(duration), SliderInput(3));
    SliderMoveKeepsIcon(s1, 8);
  }

  /**
   After a mute by the icon, raising the slider clears the muted flag, which
   re-renders and draws the non-mute icon of the new value, yet the element stays
   muted and makes no sound.
   */
  lemma RaisingSliderAfterIconMute(s: Session, tenths: nat)
    requires s.player.isMuted && s.player.video.Some? && s.player.video.value.muted
    requires 0 < tenths <= 10
    ensures var t := Step(s, SliderInput(tenths));
      && !t.player.isMuted && IconCurrent(t) && t.icon != Mute
      && !Audible(t.player)
  {
    MuteIconExactlyAtZero(tenths);
  }

  /** Presses of `key`, `n` of them in a row, with the wiring as written. */
  function Presses(s: Session, key: string, n: nat): Session
    decreases n
  {
    if n == 0 then s else Presses(Step(s, KeyDown(key)), key, n - 1)
  }

  /**
   One "m" while paused, with the position unchanged since the listener was
   registered and a listener that saw the player muted: the slider is at 0.2 and
   the element unmuted, the muted flag flips, and the listener is kept.
   */
  lemma KeyMuteWhilePaused(s: Session)
    requires s.player.video.Some? && !s.player.isPlaying
    requires s.listener.isMuted && !s.listener.isPlaying
    requires s.listener.position == PositionDep(s.player)
    ensures var t := Step(s, KeyDown("m"));
      && t.player.video.Some? && !t.player.isPlaying
      && !t.player.video.value.muted
      && t.player.slider == 2
      && t.player.isMuted == !s.player.isMuted
      && PositionDep(t.player) == PositionDep(s.player)
      && t.listener == s.listener
  {
    var t := Step(s, KeyDown("m"));
    KeyPressMatchesTable(s.player, "m", ListenerView(s.listener));
    assert t.player == HandleMute(s.player, ListenerView(s.listener));
  }

  /**
   While paused and with the position unchanged since the listener was
   registered, a listener that saw the player muted unmutes on every "m": however
   many times "m" is pressed, the slider ends at 0.2 and the element unmuted,
   while the muted flag flips with each press.
   */
  lemma {:induction false} KeyMuteNeverMutesWhilePaused(s: Session, n: nat)
    requires s.player.video.Some? && !s.player.isPlaying
    requires s.listener.isMuted && !s.listener.isPlaying
    requires s.listener.position == PositionDep(s.player)
    requires n >= 1
    ensures var r := Presses(s, "m", n);
      && r.player.video.Some?
      && !r.player.video.value.muted
      && r.player.slider == 2
      && r.player.isMuted == (if n % 2 == 0 then s.player.isMuted else !s.player.isMuted)
      && r.listener == s.listener
    decreases n
  {
    var t := Step(s, KeyDown("m"));
    KeyMuteWhilePaused(s);
    if n > 1 {
      KeyMuteNeverMutesWhilePaused(t, n - 1);
      assert Presses(s, "m", n) == Presses(t, "m", n - 1);
    }
  }

  /**
   The concrete case: muted and paused, pressing "m" twice ends with the muted
   flag set but the slider at 0.2 and the element unmuted, where two clicks on
   the icon end muted with the slider at 0.
   */
  lemma KeyMuteTwiceVersusIconTwice(s: Session)
    requires s.player.video.Some? && !s.player.isPlaying && s.player.isMuted
    requires s.listener == Listening(s.player)
    ensures var k := Step(Step(s, KeyDown("m")), KeyDown("m")).player;
      k.isMuted && k.slider == 2 && !k.video.value.muted
    ensures var c := Step(s, IconClick);
      var i := Step(c, IconClick).player;
      i.isMuted && i.slider == 0 && i.video.value.muted
  {
    KeyMuteNeverMutesWhilePaused(s, 2);
    assert Presses(s, "m", 2) == Step(Step(s, KeyDown("m")), KeyDown("m"));
  }

  /** With `isMuted` as a dependency, a listener with the current view keeps it after any step. */
  lemma FixedListenerSeesCurrent(s: Session, e: Event)
    requires Enabled(s, e) && SeesCurrent(s)
    ensures SeesCurrent(FixedStep(s, e))
  {
  }

  /**
   With the corrected wiring, "m" acts as the icon does: the element's muted flag
   follows the muted flag, and two presses restore both.
   */
  lemma FixedKeyMuteTracksFlag(s: Session)
    requires s.player.video.Some? && SeesCurrent(s)
    ensures var t := FixedStep(s, KeyDown("m"));
      t.player.video.Some? && t.player.video.value.muted == t.player.isMuted
      && t.player.isMuted == !s.player.isMuted
    ensures var t := FixedStep(s, KeyDown("m"));
      var u := FixedStep(t, KeyDown("m"));
      u.player.video.Some? && u.player.isMuted == s.player.isMuted
      && u.player.video.value.muted == s.player.isMuted
  {
    var p := s.player;
    KeyPressMatchesTable(p, "m", Current(p));
    var t := FixedStep(s, KeyDown("m"));
    assert t.player == HandleMute(p, Current(p));
    MuteTracksFlag(p);
    FixedListenerSeesCurrent(s, KeyDown("m"));
    KeyPressMatchesTable(t.player, "m", Current(t.player));
    MuteTwice(p);
  }
}

=== FILE: time_format.dfy ===
/**
 The two clock renderings of the player: `formatTime` for the elapsed time
 (`MM:SS`) and `formatDuration` for the remaining time (`HH:MM:SS`), both over
 whole seconds, together with a parser for colon-separated numeral fields that
 reads a rendering back.

 JavaScript's `Math.floor(t / 60)` is floor division, which for a positive
 divisor is exactly Dafny's `/`; JavaScript's `t % 60` keeps the sign of `t`,
 which `JsRemainder60` writes out.
 */
module TimeFormat {
  import opened Wrappers
  import opened Decimal

  /** `s.padStart(2, '0')`: left-pads with zeros up to width two and never truncates. */
  function PadStart2(s: string): (r: string)
    ensures |r| == if |s| >= 2 then |s| else 2
    ensures r[|r| - |s|..] == s
    ensures forall i :: 0 <= i < |r| - |s| ==> r[i] == '0'
  {
    if |s| >= 2 then s else if |s| == 1 then "0" + s else "00"
  }

  /** JavaScript's `a % 60`: the remainder takes the sign of `a`, and `a` minus it is a whole number of minutes. */
  function JsRemainder60(a: int): (r: int)
    ensures a >= 0 ==> 0 <= r < 60
    ensures a < 0 ==> -60 < r <= 0
    ensures (a - r) % 60 == 0
  {
    if a >= 0 then a % 60 else -((-a) % 60)
  }

  /** One clock field: `Math.floor(x).toString().padStart(2, '0')` for an integer `x`. */
  function Field(n: int): string {
    PadStart2(IntToString(n))
  }

  /** A field as the formatters write it: at least two characters, with a leading zero only as padding. */
  predicate Padded(f: string) {
    |f| >= 2 && (|f| > 2 ==> f[0] != '0')
  }

  /** Every field is padded. */
  predicate AllPadded(fields: seq<string>) {
    forall i :: 0 <= i < |fields| ==> Padded(fields[i])
  }

  /** Fields written one after another with a colon between each two. */
  function Join(fields: seq<string>): string
    requires |fields| >= 1
    decreases |fields|
  {
    if |fields| == 1 then fields[0] else fields[0] + ":" + Join(fields[1..])
  }

  /**
   `formatTime`: total minutes and the seconds within the minute, each as a field.
   A non-negative time reads back as exactly those two numbers; a negative one
   starts with a minus sign.
   */
  function FormatTime(t: int): (r: string)
    ensures t >= 0 ==> ClockFields(r) == Some([t / 60, t % 60])
    ensures t >= 0 ==> AllPadded(Split(r, ':'))
    ensures t < 0 ==> |r| > 0 && r[0] == '-'
  {
    var fields := [Field(t / 60), Field(JsRemainder60(t))];
    if t >= 0 then
      assert JsRemainder60(t) == t % 60;
      ReadFieldsTwo(t / 60, t % 60);
      Join(fields)
    else
      FieldOfNegative(t / 60);
      JoinTwo(fields[0], fields[1]);
      Join(fields)
  }

  /**
   `formatDuration`: hours, total minutes (not reduced modulo 60) and seconds.
   A non-negative time reads back as exactly those three numbers; a negative one
   starts with a minus sign.
   */
  function FormatDuration(t: int): (r: string)
    ensures t >= 0 ==> ClockFields(r) == Some([t / 3600, t / 60, t % 60])
    ensures t >= 0 ==> AllPadded(Split(r, ':'))
    ensures t < 0 ==> |r| > 0 && r[0] == '-'
  {
    var fields := [Field(t / 3600), Field(t / 60), Field(JsRemainder60(t))];
    if t >= 0 then
      assert JsRemainder60(t) == t % 60;
      ReadFieldsThree(t / 3600, t / 60, t % 60);
      Join(fields)
    else
      FieldOfNegative(t / 3600);
      JoinThree(fields[0], fields[1], fields[2]);
      Join(fields)
  }

  /** Splits `s` at every occurrence of `sep`; there is always at least one piece. */
  function Split(s: string, sep: char): (parts: seq<string>)
    ensures |parts| >= 1
    decreases |s|
  {
    if |s| == 0 then [""]
    else
      var rest := Split(s[1..], sep);
      if s[0] == sep then [""] + rest else [[s[0]] + rest[0]] + rest[1..]
  }

  /** The values of a sequence of numerals, or `None` when a piece is empty or holds a non-digit. */
  function NumeralValues(parts: seq<string>): (r: Option<seq<nat>>)
    ensures r.Some? ==> |r.value| == |parts|
  {
    if |parts| == 0 then Some([])
    else if |parts[0]| == 0 || !AllDigits(parts[0]) then None
    else
      match NumeralValues(parts[1..])
      case None => None
      case Some(vs) => Some([DigitsValue(parts[0])] + vs)
  }

  /** Reads a colon-separated clock display back as its field values. */
  function ClockFields(s: string): Option<seq<nat>> {
    NumeralValues(Split(s, ':'))
  }

  /** A piece without the separator is not split. */
  lemma {:induction false} SplitWhole(a: string, sep: char)
    requires sep !in a
    ensures Split(a, sep) == [a]
    decreases |a|
  {
    if |a| > 0 {
      assert sep !in a[1..];
      SplitWhole(a[1..], sep);
      assert [a[0]] + a[1..] == a;
    }
  }

  /** A leading piece without the separator comes off as the first part. */
  lemma {:induction false} SplitPiece(a: string, sep: char, b: string)
    requires sep !in a
    ensures Split(a + [sep] + b, sep) == [a] + Split(b, sep)
    decreases |a|
  {
    var s := a + [sep] + b;
    if |a| == 0 {
      assert s[1..] == b;
    } else {
      assert s[1..] == a[1..] + [sep] + b;
      assert sep !in a[1..];
      SplitPiece(a[1..], sep, b);
      assert [a[0]] + a[1..] == a;
    }
  }

  /** A non-empty string of digits. */
  predicate Numeral(s: string) {
    |s| > 0 && AllDigits(s)
  }

  /** A non-negative field is a numeral of at least two digits whose value is the field's number. */
  lemma FieldOfNat(n: nat)
    ensures |Field(n)| >= 2
    ensures Numeral(Field(n))
    ensures DigitsValue(Field(n)) == n
    ensures n < 100 ==> |Field(n)| == 2
    ensures Padded(Field(n))
  {
    var s := NatToString(n);
    NatToStringShape(n);
    NatToStringRoundTrip(n);
    if |s| < 2 {
      assert Field(n) == "0" + s;
      LeadingZeroValue(s);
    }
  }

  /** A negative field keeps its minus sign in front: padding never applies to it. */
  lemma FieldOfNegative(n: int)
    requires n < 0
    ensures Field(n)[0] == '-'
  {
  }

  /** A numeral contains no colon. */
  lemma NumeralHasNoColon(s: string)
    requires Numeral(s)
    ensures ':' !in s
  {
    forall i | 0 <= i < |s|
      ensures s[i] != ':'
    {
      assert IsDigit(s[i]);
    }
  }

  /** Splitting joined numerals at the colons gives the numerals back. */
  lemma {:induction false} SplitJoin(fields: seq<string>)
    requires |fields| >= 1
    requires forall i :: 0 <= i < |fields| ==> Numeral(fields[i])
    ensures Split(Join(fields), ':') == fields
    decreases |fields|
  {
    NumeralHasNoColon(fields[0]);
    if |fields| == 1 {
      SplitWhole(fields[0], ':');
    } else {
      var rest := fields[1..];
      assert forall i :: 0 <= i < |rest| ==> Numeral(rest[i]) by {
        forall i | 0 <= i < |rest|
          ensures Numeral(rest[i])
        {
          assert rest[i] == fields[i + 1];
        }
      }
      SplitJoin(rest);
      SplitPiece(fields[0], ':', Join(rest));
      assert fields == [fields[0]] + rest;
    }
  }

  /** Numerals read back as their values, in order. */
  lemma {:induction false} ValuesOfNumerals(fields: seq<string>)
    requires forall i :: 0 <= i < |fields| ==> Numeral(fields[i])
    ensures NumeralValues(fields).Some?
    ensures forall i :: 0 <= i < |fields| ==> AllDigits(fields[i]) && NumeralValues(fields).value[i] == DigitsValue(fields[i])
    decreases |fields|
  {
    if |fields| > 0 {
      var rest := fields[1..];
      assert forall i :: 0 <= i < |rest| ==> Numeral(rest[i]) by {
        forall i | 0 <= i < |rest|
          ensures Numeral(rest[i])
        {
          assert rest[i] == fields[i + 1];
        }
      }
      ValuesOfNumerals(rest);
    }
  }

  /** A display made of numerals reads back field by field. */
  lemma ReadJoin(fields: seq<string>)
    requires |fields| >= 1
    requires forall i :: 0 <= i < |fields| ==> Numeral(fields[i])
    ensures Split(Join(fields), ':') == fields
    ensures ClockFields(Join(fields)).Some?
    ensures |ClockFields(Join(fields)).value| == |fields|
    ensures forall i :: 0 <= i < |fields| ==> AllDigits(fields[i]) && ClockFields(Join(fields)).value[i] == DigitsValue(fields[i])
  {
    SplitJoin(fields);
    ValuesOfNumerals(fields);
  }

  /** Two fields joined: the first, a colon, the second. */
  lemma JoinTwo(a: string, b: string)
    ensures Join([a, b]) == a + ":" + b
  {
    assert [a, b][1..] == [b];
  }

  /** Three fields joined: each two separated by a colon. */
  lemma JoinThree(a: string, b: string, c: string)
    ensures Join([a, b, c]) == a + ":" + (b + ":" + c)
  {
    assert [a, b, c][1..] == [b, c];
    JoinTwo(b, c);
  }

  /** Two joined numerals read back as their two values. */
  lemma ReadTwo(a: string, b: string)
    requires Numeral(a) && Numeral(b)
    ensures ClockFields(Join([a, b])) == Some([DigitsValue(a), DigitsValue(b)])
    ensures Split(Join([a, b]), ':') == [a, b]
  {
    var fs := [a, b];
    assert forall i :: 0 <= i < |fs| ==> Numeral(fs[i]) by {
      forall i | 0 <= i < |fs|
        ensures Numeral(fs[i])
      {
        if i == 0 {
          assert fs[i] == a;
        } else {
          assert fs[i] == b;
        }
      }
    }
    ReadJoin(fs);
    var v := ClockFields(Join(fs)).value;
    assert v[0] == DigitsValue(fs[0]) && v[1] == DigitsValue(fs[1]);
    assert v == [DigitsValue(a), DigitsValue(b)];
  }

  /** Three joined numerals read back as their three values. */
  lemma ReadThree(a: string, b: string, c: string)
    requires Numeral(a) && Numeral(b) && Numeral(c)
    ensures ClockFields(Join([a, b, c])) == Some([DigitsValue(a), DigitsValue(b), DigitsValue(c)])
    ensures Split(Join([a, b, c]), ':') == [a, b, c]
  {
    var fs := [a, b, c];
    assert forall i :: 0 <= i < |fs| ==> Numeral(fs[i]) by {
      forall i | 0 <= i < |fs|
        ensures Numeral(fs[i])
      {
        if i == 0 {
          assert fs[i] == a;
        } else if i == 1 {
          assert fs[i] == b;
        } else {
          assert fs[i] == c;
        }
      }
    }
    ReadJoin(fs);
    var v := ClockFields(Join(fs)).value;
    assert v[0] == DigitsValue(fs[0]) && v[1] == DigitsValue(fs[1]) && v[2] == DigitsValue(fs[2]);
    assert v == [DigitsValue(a), DigitsValue(b), DigitsValue(c)];
  }

  /** Two padded fields make a list of padded fields. */
  lemma PaddedTwo(a: string, b: string)
    requires Padded(a) && Padded(b)
    ensures AllPadded([a, b])
  {
  }

  /** Three padded fields make a list of padded fields. */
  lemma PaddedThree(a: string, b: string, c: string)
    requires Padded(a) && Padded(b) && Padded(c)
    ensures AllPadded([a, b, c])
  {
  }

  /** Two fields of non-negative numbers read back as those numbers. */
  lemma ReadFieldsTwo(m: nat, sec: nat)
    ensures ClockFields(Join([Field(m), Field(sec)])) == Some([m, sec])
    ensures AllPadded(Split(Join([Field(m), Field(sec)]), ':'))
  {
    FieldOfNat(m);
    FieldOfNat(sec);
    ReadTwo(Field(m), Field(sec));
    PaddedTwo(Field(m), Field(sec));
  }

  /** Three fields of non-negative numbers read back as those numbers. */
  lemma ReadFieldsThree(h: nat, m: nat, sec: nat)
    ensures ClockFields(Join([Field(h), Field(m), Field(sec)])) == Some([h, m, sec])
    ensures AllPadded(Split(Join([Field(h), Field(m), Field(sec)]), ':'))
  {
    FieldOfNat(h);
    FieldOfNat(m);
    FieldOfNat(sec);
    ReadThree(Field(h), Field(m), Field(sec));
    PaddedThree(Field(h), Field(m), Field(sec));
  }

  /**
   The elapsed-time display of a non-negative time reads back as two fields,
   minutes and seconds within the minute, that together denote exactly `t`.
   */
  lemma FormatTimeReadsBack(t: int)
    requires t >= 0
    ensures ClockFields(FormatTime(t)).Some?
    ensures |ClockFields(FormatTime(t)).value| == 2
    ensures var f := ClockFields(FormatTime(t)).value; 60 * f[0] + f[1] == t && f[1] < 60
  {
    var m, sec := t / 60, t % 60;
    assert JsRemainder60(t) == sec;
    ReadFieldsTwo(m, sec);
    assert ClockFields(FormatTime(t)) == Some([m, sec]);
  }

  /** Different non-negative times never show the same elapsed-time display. */
  lemma FormatTimeInjective(t: int, u: int)
    requires t >= 0 && u >= 0
    requires FormatTime(t) == FormatTime(u)
    ensures t == u
  {
    FormatTimeReadsBack(t);
    FormatTimeReadsBack(u);
  }

  /** Two fields below 100 make a five-character `DD:DD` display. */
  lemma TwoFieldLayout(m: nat, sec: nat)
    requires m < 100 && sec < 100
    ensures var s := Join([Field(m), Field(sec)]);
      |s| == 5 && s[2] == ':' && AllDigits(s[..2]) && AllDigits(s[3..])
  {
    var a, b := Field(m), Field(sec);
    FieldOfNat(m);
    FieldOfNat(sec);
    JoinTwo(a, b);
    var s := a + ":" + b;
    assert s[..2] == a;
    assert s[3..] == b;
  }

  /** Below 100 minutes the elapsed time is exactly `MM:SS`: five characters, colon in the middle. */
  lemma FormatTimeLayout(t: int)
    requires 0 <= t < 6000
    ensures |FormatTime(t)| == 5
    ensures FormatTime(t)[2] == ':'
    ensures AllDigits(FormatTime(t)[..2]) && AllDigits(FormatTime(t)[3..])
  {
    var m, sec := t / 60, t % 60;
    assert m < 100 && JsRemainder60(t) == sec;
    TwoFieldLayout(m, sec);
  }

  /**
   The remaining-time display of a non-negative time reads back as three fields:
   the seconds within the minute, the TOTAL minutes (they reach 60 and beyond, they
   are not the minutes within the hour), and hours that are the minutes divided by 60.
   */
  lemma FormatDurationReadsBack(t: int)
    requires t >= 0
    ensures ClockFields(FormatDuration(t)).Some?
    ensures |ClockFields(FormatDuration(t)).value| == 3
    ensures var f := ClockFields(FormatDuration(t)).value;
              60 * f[1] + f[2] == t && f[2] < 60 && f[0] == f[1] / 60
  {
    var h, m, sec := t / 3600, t / 60, t % 60;
    assert JsRemainder60(t) == sec;
    ReadFieldsThree(h, m, sec);
    assert ClockFields(FormatDuration(t)) == Some([h, m, sec]);
    HoursAreMinutesOverSixty(t);
  }

  /** Whole hours are whole minutes divided by sixty. */
  lemma HoursAreMinutesOverSixty(t: nat)
    ensures t / 3600 == (t / 60) / 60
  {
    var m, h := t / 60, (t / 60) / 60;
    assert t == 60 * m + t % 60;
    assert m == 60 * h + m % 60;
    assert t == 3600 * h + (60 * (m % 60) + t % 60);
    assert 0 <= 60 * (m % 60) + t % 60 < 3600;
  }

  /** From one hour on, the minutes field shows 60 or more. */
  lemma FormatDurationMinutesUnreduced(t: int)
    requires t >= 3600
    ensures ClockFields(FormatDuration(t)).Some?
    ensures |ClockFields(FormatDuration(t)).value| == 3
    ensures ClockFields(FormatDuration(t)).value[1] >= 60
  {
    FormatDurationReadsBack(t);
  }

  /** One hour shows as `01`. */
  lemma FieldOne()
    ensures Field(1) == "01"
  {
    assert NatToString(1) == [DigitChar(1)] == "1";
  }

  /** Sixty-one minutes show as `61`. */
  lemma FieldSixtyOne()
    ensures Field(61) == "61"
  {
    assert NatToString(6) == [DigitChar(6)];
    assert NatToString(61) == [DigitChar(6), DigitChar(1)];
  }

  /** Forty seconds show as `40`. */
  lemma FieldForty()
    ensures Field(40) == "40"
  {
    assert NatToString(4) == [DigitChar(4)];
    assert NatToString(40) == [DigitChar(4), DigitChar(0)];
  }

  /** 3700 seconds, one hour one minute forty seconds, is shown as `01:61:40`. */
  lemma FormatDurationExample(t: int)
    requires t == 3700
    ensures FormatDuration(t) == "01:61:40"
  {
    assert Field(t / 3600) == "01" && Field(t / 60) == "61" && Field(JsRemainder60(t)) == "40" by {
      assert t / 3600 == 1 && t / 60 == 61 && JsRemainder60(t) == 40;
      FieldOne();
      FieldSixtyOne();
      FieldForty();
    }
    ExampleText();
  }

  /** The fields `01`, `61` and `40` joined. */
  lemma ExampleText()
    ensures Join(["01", "61", "40"]) == "01:61:40"
  {
    JoinThree("01", "61", "40");
  }

  /** Zero hours show as `00`. */
  lemma FieldZero()
    ensures Field(0) == "00"
  {
    assert NatToString(0) == [DigitChar(0)] == "0";
  }

  /** A zero hours field in front of two fields. */
  lemma ZeroHoursJoin(b: string, c: string)
    ensures Join(["00", b, c]) == "00:" + Join([b, c])
  {
    JoinThree("00", b, c);
    JoinTwo(b, c);
  }

  /** Under an hour the remaining-time display is the elapsed-time display behind an `00:` hours field. */
  lemma FormatDurationUnderAnHour(t: int)
    requires 0 <= t < 3600
    ensures FormatDuration(t) == "00:" + FormatTime(t)
  {
    assert Field(t / 3600) == "00" by {
      assert t / 3600 == 0;
      FieldZero();
    }
    ZeroHoursJoin(Field(t / 60), Field(JsRemainder60(t)));
  }

  /** A negative time, reachable when the position passes the end, is shown with a leading minus sign and reads back as no clock. */
  lemma NegativeTimes(t: int)
    requires t < 0
    ensures FormatTime(t)[0] == '-' && FormatDuration(t)[0] == '-'
    ensures ClockFields(FormatTime(t)) == None
    ensures ClockFields(FormatDuration(t)) == None
  {
    FieldOfNegative(t / 60);
    FieldOfNegative(t / 3600);
    var s := FormatTime(t);
    var d := FormatDuration(t);
    assert Split(s, ':')[0][0] == '-' by {
      SplitFirstChar(s, ':');
    }
    assert Split(d, ':')[0][0] == '-' by {
      SplitFirstChar(d, ':');
    }
  }

  /** Minus one minute shows as `-1`: it is already two characters, so nothing is padded. */
  lemma FieldMinusOne()
    ensures Field(-1) == "-1"
  {
    assert NatToString(1) == [DigitChar(1)] == "1";
  }

  /** Minus thirty seconds shows as `-30`. */
  lemma FieldMinusThirty()
    ensures Field(-30) == "-30"
  {
    assert NatToString(3) == [DigitChar(3)];
    assert NatToString(30) == [DigitChar(3), DigitChar(0)] == "30";
  }

  /**
   Thirty seconds before the start show as `-1:-30`: the minutes are rounded down
   to -1 while the seconds keep the sign of the time.
   */
  lemma FormatTimeNegativeExample(t: int)
    requires t == -30
    ensures FormatTime(t) == "-1:-30"
  {
    assert Field(t / 60) == "-1" && Field(JsRemainder60(t)) == "-30" by {
      assert t / 60 == -1 && JsRemainder60(t) == -30;
      FieldMinusOne();
      FieldMinusThirty();
    }
    NegativeExampleText();
  }

  /** The fields `-1` and `-30` joined. */
  lemma NegativeExampleText()
    ensures Join(["-1", "-30"]) == "-1:-30"
  {
    JoinTwo("-1", "-30");
  }

  /** When a string starts with a character other than the separator, that character starts the first piece. */
  lemma SplitFirstChar(s: string, sep: char)
    requires |s| > 0 && s[0] != sep
    ensures |Split(s, sep)[0]| > 0 && Split(s, sep)[0][0] == s[0]
  {
  }
}

=== FILE: volume_icon.dfy ===
/**
 The volume icon of the player. The icon is chosen from the volume slider's
 value, which is a STRING ("0", "0.1", ..., "0.9", "1" for a range input with
 step 0.1), by JavaScript string comparison against "0", "0.4" and "0.7".
 */
module VolumeIcon {
  import opened Wrappers
  import opened Decimal

  datatype Icon = Mute | Low | Medium | High

  /** A value the volume slider can hold (min 0, max 1, step 0.1), in tenths. */
  type Tenths = t: nat | t <= 10

  /** The loudness order of the icons. */
  function Rank(i: Icon): nat {
    match i
    case Mute => 0
    case Low => 1
    case Medium => 2
    case High => 3
  }

  /** JavaScript `a < b` on two strings: code unit by code unit, and a proper prefix is smaller. */
  predicate StrLess(a: string, b: string)
    decreases |a|
  {
    if |a| == 0 then |b| > 0
    else if |b| == 0 then false
    else if a[0] != b[0] then a[0] < b[0]
    else StrLess(a[1..], b[1..])
  }

  /** JavaScript `a <= b` on two strings, which is defined as `!(b < a)`. */
  predicate StrLessEq(a: string, b: string) {
    !StrLess(b, a)
  }

  lemma {:induction false} StrLessIrreflexive(a: string)
    ensures !StrLess(a, a)
    decreases |a|
  {
    if |a| > 0 {
      StrLessIrreflexive(a[1..]);
    }
  }

  lemma {:induction false} StrLessAsymmetric(a: string, b: string)
    requires StrLess(a, b)
    ensures !StrLess(b, a)
    decreases |a|
  {
    if |a| > 0 && |b| > 0 && a[0] == b[0] {
      StrLessAsymmetric(a[1..], b[1..]);
    }
  }

  lemma {:induction false} StrLessTransitive(a: string, b: string, c: string)
    requires StrLess(a, b) && StrLess(b, c)
    ensures StrLess(a, c)
    decreases |a|
  {
    if |a| > 0 && a[0] == b[0] && b[0] == c[0] {
      StrLessTransitive(a[1..], b[1..], c[1..]);
    }
  }

  lemma {:induction false} StrLessTrichotomy(a: string, b: string)
    ensures StrLess(a, b) || a == b || StrLess(b, a)
    decreases |a|
  {
    if |a| > 0 && |b| > 0 && a[0] == b[0] {
      StrLessTrichotomy(a[1..], b[1..]);
      if a[1..] == b[1..] {
        assert a == [a[0]] + a[1..] && b == [b[0]] + b[1..];
      }
    }
  }

  /** String `<=` is a total order: reflexive, antisymmetric, transitive and total. */
  lemma StrLessEqTotalOrder(a: string, b: string, c: string)
    ensures StrLessEq(a, a)
    ensures StrLessEq(a, b) && StrLessEq(b, a) ==> a == b
    ensures StrLessEq(a, b) && StrLessEq(b, c) ==> StrLessEq(a, c)
    ensures StrLessEq(a, b) || StrLessEq(b, a)
  {
    StrLessIrreflexive(a);
    StrLessTrichotomy(a, b);
    if StrLess(a, b) {
      StrLessAsymmetric(a, b);
    }
    if StrLess(a, b) && StrLess(c, a) {
      StrLessTransitive(c, a, b);
    }
  }

  /** The text of the volume slider at `tenths` tenths of full volume. */
  function SliderText(tenths: nat): string
    requires tenths <= 10
  {
    if tenths == 0 then "0"
    else if tenths == 10 then "1"
    else "0." + [DigitChar(tenths)]
  }

  /** Reads a slider text back as tenths; `None` for any text the slider does not produce. */
  function SliderTenths(s: string): (r: Option<nat>)
    ensures r.Some? ==> r.value <= 10
  {
    if s == "0" then Some(0)
    else if s == "1" then Some(10)
    else if |s| == 3 && s[..2] == "0." && '1' <= s[2] <= '9' then Some(DigitValue(s[2]))
    else None
  }

  /** The slider texts and the tenths they stand for determine each other. */
  lemma SliderTextRoundTrip(tenths: nat, s: string)
    requires tenths <= 10
    ensures SliderTenths(SliderText(tenths)) == Some(tenths)
    ensures SliderTenths(s) == Some(tenths) ==> SliderText(tenths) == s
  {
    var t := SliderText(tenths);
    if 0 < tenths < 10 {
      assert t[..2] == "0.";
    }
    if SliderTenths(s) == Some(tenths) && 0 < tenths < 10 {
      assert s == s[..2] + [s[2]];
    }
  }

  /** A text above "0.7" is above "0.4" too: the thresholds are tried in increasing order. */
  lemma AboveUpperIsAboveLower(s: string)
    ensures StrLess("0.7", s) ==> StrLess("0.4", s)
  {
    if StrLess("0.7", s) {
      assert StrLess("0.4", "0.7");
      StrLessTransitive("0.4", "0.7", s);
    }
  }

  /**
   `changeVolumeIcon`: `None` is the value read while the slider is not mounted
   (`undefined`), which equals no string and compares false with every string.
   The three thresholds cut the texts into bands: exactly "0", up to "0.4", above
   "0.4" up to "0.7", and above "0.7".
   */
  function Classify(value: Option<string>): (i: Icon)
    ensures i == Mute <==> value == Some("0")
    ensures value.None? ==> i == High
    ensures value.Some? && value.value != "0" ==>
      && (i == Low <==> StrLessEq(value.value, "0.4"))
      && (i == Medium <==> StrLess("0.4", value.value) && StrLessEq(value.value, "0.7"))
      && (i == High <==> StrLess("0.7", value.value))
  {
    match value
    case None => High
    case Some(s) =>
      AboveUpperIsAboveLower(s);
      if s == "0" then Mute
      else if StrLessEq(s, "0.4") then Low
      else if StrLessEq(s, "0.7") then Medium
      else High
  }

  /** The icon of a volume level by the numeric thresholds 0, 0.4 and 0.7, upper bounds included. */
  function IconByLevel(tenths: nat): Icon {
    if tenths == 0 then Mute
    else if tenths <= 4 then Low
    else if tenths <= 7 then Medium
    else High
  }

  /** The icon the player shows for a mounted slider at `tenths`. */
  function SliderIcon(tenths: nat): Icon
    requires tenths <= 10
  {
    Classify(Some(SliderText(tenths)))
  }

  /** The text comparison that digits "0." followed by a digit perform against "0.4" or "0.7". */
  lemma TenthsTextLessEq(d: nat, e: nat)
    requires 1 <= d <= 9 && 1 <= e <= 9
    ensures StrLessEq("0." + [DigitChar(d)], "0." + [DigitChar(e)]) <==> d <= e
  {
    var a, b := "0." + [DigitChar(d)], "0." + [DigitChar(e)];
    var cd, ce := DigitChar(d), DigitChar(e);
    assert a[0] == b[0] && a[1..] == "." + [cd] && b[1..] == "." + [ce];
    assert StrLess(b, a) == StrLess("." + [ce], "." + [cd]);
    assert ("." + [ce])[1..] == [ce] && ("." + [cd])[1..] == [cd];
    assert StrLess(b, a) == StrLess([ce], [cd]);
    assert [ce][1..] == [] && [cd][1..] == [];
    assert StrLess([ce], [cd]) <==> ce < cd;
  }

  /**
   Over every value the slider can hold, the string comparisons pick the same icon
   as the numeric thresholds; in particular "1", full volume, compares greater than
   "0.7" and shows the high icon.
   */
  lemma SliderIconMatchesThresholds(tenths: nat)
    requires tenths <= 10
    ensures SliderIcon(tenths) == IconByLevel(tenths)
  {
    var s := SliderText(tenths);
    if tenths == 10 {
      assert s == "1";
      assert StrLess("0.4", s) && StrLess("0.7", s);
    } else if tenths > 0 {
      TenthsTextLessEq(tenths, 4);
      TenthsTextLessEq(tenths, 7);
      assert DigitChar(4) == '4' && DigitChar(7) == '7';
      assert "0.4" == "0." + [DigitChar(4)] && "0.7" == "0." + [DigitChar(7)];
    }
  }

  /** The icon grows with the volume. */
  lemma SliderIconMonotone(v: nat, w: nat)
    requires v <= w <= 10
    ensures Rank(SliderIcon(v)) <= Rank(SliderIcon(w))
  {
    SliderIconMatchesThresholds(v);
    SliderIconMatchesThresholds(w);
  }

  /** The mute icon is shown exactly at volume zero; before the slider is mounted the high icon is shown. */
  lemma MuteIconExactlyAtZero(tenths: nat)
    requires tenths <= 10
    ensures SliderIcon(tenths) == Mute <==> tenths == 0
    ensures Classify(None) == High
  {
    SliderIconMatchesThresholds(tenths);
  }
}

=== FILE: wrappers.dfy ===
/** The optional-value datatype shared by the other modules. */
module Wrappers {

  datatype Option<+T> = None | Some(value: T)
}
